=== FILE: README.md ===
# libargparse core, modelled in Dafny

This project models the part of the libargparse C++ library that has real
behaviour today:

- **Option styles.** An option style decides whether a command-line token is
  an option and splits it into an option name and an inline value.
  - The generic `OptionStyle` is an indicator plus a value delimiter.
  - `UnixStyle` handles `-x` short options and `--name[=value]` long options.
  - `WindowsStyle` is the generic style with `/` and `:`.
  - `ArgumentParser::splitOption` is the parser's older splitter.
- **Arity (`NARGS`).** Arity values are `uint32` numbers. Three sentinels sit
  at the top of the range, and `NO_MORE` equals the count 0. Each sentinel
  has a name.
- **Argument records.** `IArgument`, `IOptionalArgument` and `BooleanArg` hold
  the fields of an argument. The model covers their setters, copy, move and
  assignment, and the arity whitelist of `BooleanArg`.

Everything is written as pure functions over immutable datatypes. Strings are
`seq<char>`. Each `char` stands for one byte of the `std::string`, so
non-ASCII text enters as its UTF-8 bytes.

`size_t` is taken to be 64 bits wide. `StdString.SizeSub` writes out its
wrap-around subtraction, and `StdString.Substr` clamps a length that runs past
the end of the string, as `substr` does. An operation that can throw returns a
`Results.Outcome`. That is the caller-visible state after the call, plus the
exception raised, if any. The split operations take the caller's incoming
`Option` and `Value`. The outcome's state is what those out-parameters hold
afterwards. This is how the model states the strong exception guarantee: on
failure, the state equals the inputs.

Modules, one per source component:

| module | file | models |
|---|---|---|
| `Results` | results.dfy | option, result and outcome-after-a-throw datatypes |
| `StdString` | std_string.dfy | `npos`, `find`, `find_first_of`, `substr`, size_t wrap-around |
| `OptionStyle` | option_style.dfy | src/OptionStyles/OptionStyle.cpp |
| `UnixStyle` | unix_style.dfy | src/OptionStyles/UnixStyle.cpp |
| `WindowsStyle` | windows_style.dfy | src/OptionStyles/WindowsStyle.cpp |
| `ArgumentParser` | argument_parser.dfy | `splitOption` of src/ArgumentParser.cpp |
| `Nargs` | nargs.dfy | include/argparse/args/NARGS.hpp, src/args/NARGS.cpp |
| `Helpers` | helpers.dfy | `exchange_basic` of include/argparse/helpers.hpp |
| `ArgumentBase` | argument_base.dfy | src/args/IArgument.cpp |
| `OptionalArgument` | optional_argument.dfy | src/args/IOptionalArgument.cpp |
| `BooleanArg` | boolean_arg.dfy | src/args/BooleanArg.cpp |

Behaviours of the code worth knowing:

- **Token equal to the indicator.** The generic `isArgOptional` requires the
  token to be strictly longer than the indicator. So a token equal to the
  indicator is positional, and splitting it raises "not an option".
- **Delimiter as name.** Only the Unix style raises this error; the generic
  split never does. The model proves that the intended generic split's name
  never contains the delimiter.
- **Empty delimiter.** With an empty value delimiter the generic split takes
  the whole rest of the token as the name and leaves the value empty.
- **`=` in short options.** The Unix short form rejects `=` only at the third
  character. `-fa=b` is accepted with value `a=b`.
- **No value versus empty value.** A missing inline value and an empty one are
  both the empty string: `--name` and `--name=` give the same result.
- **No parsing engine.** The code has no argument registry, arity consumption
  or error-policy dispatch. `ArgumentParser::parse` loops over the tokens, but
  every branch is empty, and `ErrorAction` is only stored. So the model has no
  parsing engine.
- **Field set of the records.** The code is mid-refactor and its headers and
  .cpp files disagree. The model follows the headers where they agree with
  the behaviour in the .cpp files:
  - `IArgument` has help, NArgs, required and deprecated. It has no `Flags`
    string: the header does not declare one, though IArgument.cpp still
    copies and moves one.
  - `IOptionalArgument` adds its flags list.
  - `BooleanArg` adds the output binding, the store value and the default
    value. The output binding is used by BooleanArg.cpp but not declared in
    its header. The header's `mValue` is never touched by BooleanArg.cpp, so
    it is not modelled.

## Model

| member | source | states |
|---|---|---|
| `OptionStyle.New` | src/OptionStyles/OptionStyle.cpp:17-21 | construction succeeds iff the indicator is non-empty, stores both strings verbatim and establishes the non-empty-indicator invariant; otherwise it raises the empty-indicator error |
| `OptionStyle.Copy` | src/OptionStyles/OptionStyle.cpp:23-27 | copy (and move) construction carries indicator and delimiter over and keeps the invariant |
| `OptionStyle.SetIndicator` | src/OptionStyles/OptionStyle.cpp:35-40 | fails iff the new indicator is empty, leaving the style unchanged; otherwise stores it verbatim, keeps the delimiter, and the result is valid |
| `OptionStyle.SetValueDelimiter` | src/OptionStyles/OptionStyle.cpp:46-48 | any delimiter, empty included, is stored; the indicator and the invariant are kept |
| `OptionStyle.MatchesFrom` | src/OptionStyles/OptionStyle.cpp:53-54 | the comparison loop succeeds iff indicator and token agree at every index from i up to the indicator's length |
| `OptionStyle.IsArgOptional` | src/OptionStyles/OptionStyle.cpp:50-57 | a token is optional iff it is strictly longer than the indicator and starts with it |
| `OptionStyle.SplitArg` | src/OptionStyles/OptionStyle.cpp:59-98 | as written: raises NotAnOption iff the token is not optional, raises MissingOptionName iff it is optional and the caller's incoming Option is empty, succeeds otherwise; on any failure Option and Value are unchanged; with an empty delimiter a success gives the whole rest of the token as the name and an empty value |
| `OptionStyle.SplitArgIntended` | src/OptionStyles/OptionStyle.cpp:59-98 | corrected split: fails iff the token is not optional or the delimiter immediately follows the indicator; on success the name is non-empty, contains no delimiter occurrence, and indicator + name + delimiter + value (or indicator + name with empty value) rebuilds the token; with an empty delimiter the name is the whole rest of the token and the value is empty; failures leave the outputs unchanged |
| `OptionStyle.SplitArgVersusIntended` | src/OptionStyles/OptionStyle.cpp:65-86 | when no delimiter occurrence starts inside the indicator, the code as written returns the intended parts given a non-empty incoming Option, an empty name where the intended split finds none, and always fails on an empty incoming Option |
| `OptionStyle.SplitArgDelimiterInsideIndicator` | src/OptionStyles/OptionStyle.cpp:65-93 | as written, a first delimiter occurrence at index 0 is treated as absent (name = rest, value empty), and one later inside the indicator makes the size_t length wrap, so the name is the whole rest and the value starts inside the indicator |
| `OptionStyle.IncomingOptionDefect` | src/OptionStyles/OptionStyle.cpp:76-86 | "/name:value" with an empty incoming Option fails as written but splits to ("name","value") as intended; "/:x" with a non-empty incoming Option succeeds with an empty name |
| `OptionStyle.DelimiterSearchDefect` | src/OptionStyles/OptionStyle.cpp:65-75 | concrete inputs where searching from index 0 gives the wrong split: "a-x" under "a-"/"-" and "/a/b" under "/"/"/" |
| `UnixStyle.Base` | src/OptionStyles/UnixStyle.cpp:17-24 | the Unix style's base is the valid generic style with indicator "--" and delimiter "=" |
| `UnixStyle.UnixOptionalIsShortIndicatorTest` | src/OptionStyles/UnixStyle.cpp:34-43 | the override `IsUnixOptional` accepts a token iff it is "-" or the generic test with indicator "-" accepts it (a '-' followed by at least one character) |
| `UnixStyle.UnixOptionalWidensBase` | src/OptionStyles/UnixStyle.cpp:34-43 | every token the base style calls optional is Unix-optional, and "-" and "--" are Unix-optional though the base calls them positional |
| `UnixStyle.SplitArg` | src/OptionStyles/UnixStyle.cpp:45-123 | each error's exact triggering tokens (NotAnOption iff not starting with '-'; MissingOptionName iff "-", "--" or "--=" followed by text; DelimiterAsName iff "--=" or '=' second; UnsupportedDelimiterInShortOption iff a short option with '=' third); on success the name is non-empty and '='-free, the short form gives the single second character and the rest, the long form rebuilds the token as "--" + name ["=" + value]; failures leave outputs unchanged |
| `UnixStyle.LongNposBranchUnreachable` | src/OptionStyles/UnixStyle.cpp:73-79 | in the long form without '=', the computed name is never empty, so the npos branch of the empty-name case is dead |
| `UnixStyle.LongRoundTrip` | src/OptionStyles/UnixStyle.cpp:62-72 | "--" + name + "=" + value splits back to (name, value) for every '='-free non-empty name and any value |
| `UnixStyle.LongBareRoundTrip` | src/OptionStyles/UnixStyle.cpp:62-72 | "--" + name splits back to (name, "") |
| `UnixStyle.LongEmptyValueLikeBare` | src/OptionStyles/UnixStyle.cpp:62-72 | "--name=" and "--name" give identical results |
| `UnixStyle.ShortRoundTrip` | src/OptionStyles/UnixStyle.cpp:95-118 | '-' + c + value splits back to ([c], value) for c other than '-' and '=' and a value not starting with '=' |
| `UnixStyle.UnixDegenerateTokens` | src/OptionStyles/UnixStyle.cpp:45-116 | "-", "--", "--=", "--=x", "-=", "-f=x" each raise their error and leave the outputs as they were |
| `UnixStyle.UnixShortExamples` | src/OptionStyles/UnixStyle.cpp:103-118 | "-f", "-fvalue", "-fa=b" split to ("f",""), ("f","value"), ("f","a=b") |
| `WindowsStyle.Windows` | src/OptionStyles/WindowsStyle.cpp:17-18 | the Windows style is a valid generic style with indicator "/" and delimiter ":" |
| `WindowsStyle.WindowsOptionalIff` | src/OptionStyles/WindowsStyle.cpp:17-18 | a token is optional iff it has at least two characters and starts with '/' |
| `WindowsStyle.WindowsRoundTrip` | src/OptionStyles/WindowsStyle.cpp:17-18 | "/" + name + ":" + value splits back to (name, value) under the intended split, and as written exactly when the incoming Option is non-empty (an empty one raises MissingOptionName) |
| `WindowsStyle.WindowsBareRoundTrip` | src/OptionStyles/WindowsStyle.cpp:17-18 | "/" + name splits to (name, "") under the intended split, and as written given a non-empty incoming Option |
| `WindowsStyle.WindowsCopyPreserves` | src/OptionStyles/WindowsStyle.cpp:20-24 | copying (or moving) the Windows style yields the Windows style |
| `ArgumentParser.SplitOption` | src/ArgumentParser.cpp:53-63 | Option is a prefix of the token free of '=' and ':'; if shorter than the token, the next character is '=' or ':', Value is everything after it and Option + delimiter + Value rebuilds the token; otherwise Option is the whole token and Value keeps the caller's value |
| `ArgumentParser.SplitOptionRoundTrip` | src/ArgumentParser.cpp:58-62 | a delimiter-free prefix, one '=' or ':' and any rest split back into that prefix and rest |
| `ArgumentParser.SplitOptionWithoutDelimiter` | src/ArgumentParser.cpp:58-62 | with neither '=' nor ':' present, Option is the token and Value is untouched |
| `ArgumentParser.SplitOptionExamples` | src/ArgumentParser.cpp:58 | mixed delimiters: the first wins ("a:b=c" gives ("a","b=c"), "a=b:c" gives ("a","b:c")); no indicator stripping ("--x=1" gives ("--x","1")) |
| `Nargs.Decode` | include/argparse/args/NARGS.hpp:30-35 | an NArgs value is an exact count iff it is at most 2^32-4, and then equals that count; NO_MORE reads as the exact count 0 |
| `Nargs.EncodingRoundTrips` | include/argparse/args/NARGS.hpp:31-34 | decoding and encoding are inverse, so no exact count up to 2^32-4 equals one of the three open-ended sentinels (the count 0 is NO_MORE) |
| `Nargs.SentinelsDistinct` | include/argparse/args/NARGS.hpp:31-34 | NO_MORE = 0, ZERO_OR_ONE = 2^32-1, ZERO_AND_MORE = 2^32-2, ONE_AND_MORE = 2^32-3, pairwise distinct |
| `Nargs.SentinelName` | src/args/NARGS.cpp:18-25 | the four-entry name table of to_string; every name starts with "argparse::NARGS::" and is longer than that prefix |
| `Nargs.SentinelNamesInjective` | src/args/NARGS.cpp:18-25 | distinct sentinels get distinct names |
| `Nargs.ToStringAsWritten` | src/args/NARGS.cpp:16-32 | as written, to_string followed to any recursion depth: whenever it answers, the value is a sentinel and the answer is its name |
| `Nargs.ToStringAsWrittenDiverges` | src/args/NARGS.cpp:26-27 | as written, to_string answers with the sentinel's name for the sentinels and, for every other value, recurses without ever answering |
| `Nargs.ToStringIntended` | src/args/NARGS.cpp:16-32 | corrected to_string: sentinel names for sentinels; for every other value a decimal numeral that reads back as the value |
| `Nargs.ToStringIntendedInjective` | src/args/NARGS.cpp:16-32 | the corrected to_string gives every uint32 a different string |
| `Helpers.ExchangeBasic` | include/argparse/helpers.hpp:29-34 | returns the object's old value and leaves the object holding the new value |
| `Helpers.ExchangeBack` | include/argparse/helpers.hpp:29-34 | exchanging the returned value back in restores the object |
| `ArgumentBase.SetHelp` | src/args/IArgument.cpp:55-57 | the help text is stored; no other field changes |
| `ArgumentBase.SetNArgs` | src/args/IArgument.cpp:63-65 | any uint32 is stored without validation; no other field changes |
| `ArgumentBase.SetRequired` | src/args/IArgument.cpp:71-73 | the required flag is stored; no other field changes |
| `ArgumentBase.SetDeprecated` | src/args/IArgument.cpp:79-81 | the deprecated flag is stored; no other field changes |
| `ArgumentBase.Copy` | src/args/IArgument.cpp:83-89 | a copy has every field of its source |
| `ArgumentBase.CopyAssign` | src/args/IArgument.cpp:35-39 | after copy assignment the target equals the source; self-assignment leaves the object as it was |
| `ArgumentBase.Move` | src/args/IArgument.cpp:91-97 | the new object has every field of the source; the source is reset to NArgs = NO_MORE, not required, not deprecated |
| `ArgumentBase.MoveAssign` | src/args/IArgument.cpp:41-45 | self move-assignment changes nothing; otherwise the target gets the source's fields and the source is reset |
| `OptionalArgument.SetFlags` | src/args/IOptionalArgument.cpp:69-75 | the flags list is stored verbatim; the shared fields are unchanged |
| `OptionalArgument.New` | src/args/IOptionalArgument.cpp:17-35 | the flags list is stored verbatim (no de-duplication or checks) and help, NArgs, required, deprecated reach the base unchanged |
| `OptionalArgument.Copy` | src/args/IOptionalArgument.cpp:37-40 | a copy has the source's shared fields and flags |
| `OptionalArgument.CopyAssign` | src/args/IOptionalArgument.cpp:49-55 | after copy assignment the target equals the source; self-assignment changes nothing |
| `OptionalArgument.Move` | src/args/IOptionalArgument.cpp:42-45 | the new object gets the flags and shared fields; the source's shared fields are reset |
| `OptionalArgument.MoveAssign` | src/args/IOptionalArgument.cpp:57-63 | self move-assignment changes nothing; otherwise the target gets everything and the source's shared fields are reset |
| `BooleanArg.SetNArgs` | src/args/BooleanArg.cpp:59-73 | succeeds iff the value is 0, 1 or 2^32-1, then stores it and changes nothing else; any other value raises invalid_argument with the corrected message (see Findings) and leaves the object unchanged; the whitelist invariant is kept either way |
| `BooleanArg.RejectionMessage` | src/args/BooleanArg.cpp:68-71 | the corrected message: the fixed prefix, then the sentinel's name or a decimal numeral that reads back as the rejected value |
| `BooleanArg.RejectionMessageAsWritten` | src/args/BooleanArg.cpp:68-71 | the message as written, followed to any recursion depth: whenever it is built, the value is a sentinel and the message equals the corrected one |
| `BooleanArg.RejectionMessageAsWrittenDiverges` | src/args/BooleanArg.cpp:67-71 | as written, the exception message is built only for ZERO_AND_MORE and ONE_AND_MORE; for the counts 2 to 2^32-4 building it never finishes |
| `BooleanArg.SetStoreValue` | src/args/BooleanArg.cpp:83-85 | the store value is set; no other field changes; the invariant is kept |
| `BooleanArg.SetDefaultValue` | src/args/BooleanArg.cpp:91-93 | the default value is set; no other field changes; the invariant is kept |
| `BooleanArg.New` | src/args/BooleanArg.cpp:17-43 | given a non-null binding (the constructor takes a `bool &`), construction succeeds iff setNArgs accepts NArgs, with every argument stored verbatim and the invariant holding; otherwise it raises setNArgs' exception with the corrected message (see Findings) |
| `BooleanArg.NewAgreesWithSetNArgs` | src/args/BooleanArg.cpp:17-29 | the constructor and setNArgs accept exactly the same arities |
| `BooleanArg.Copy` | src/args/BooleanArg.cpp:95-99 | a copy equals its source in every field, so both objects refer to the same caller storage and the copy keeps the invariant |
| `BooleanArg.Move` | src/args/BooleanArg.cpp:101-105 | the new object gets every field; the source is left with no binding, store value true, default false, reset shared fields, and still satisfies the invariant |

## Left out

- `ArgumentParser.SplitOption`, `OptionStyle.SplitArg` and `UnixStyle.SplitArg` take `Arg`, `Option` and `Value` as independent values. In the C++ they are references that may alias, and the model assumes the two out-parameters are distinct from each other and from `Arg`. With aliasing the results differ. For example, `splitOption(s, o, s)` with `s == "ab=cd"` writes `Value` first (src/ArgumentParser.cpp:60), and then reads `Arg` again at line 62, leaving `o == "cd"`. When `Option` and `Value` are the same string, it ends up holding the value in the two style splits (src/OptionStyles/OptionStyle.cpp:96-97, src/OptionStyles/UnixStyle.cpp:121-122) but the option in `splitOption`.
- `BooleanArg.SetNArgs` and `BooleanArg.New` raise invalid_argument for every rejected arity. As written, a count from 2 to 2^32-4 never reaches the throw, because building the message never finishes (the NARGS.cpp:27 finding). `BooleanArg.RejectionMessageAsWrittenDiverges` states the as-written behaviour; the two members model the corrected one.
- Each `char` of a modelled string stands for one byte of the `std::string`. Non-ASCII text enters the model as its UTF-8 bytes, one `char` per byte. A Dafny `char` given directly is one Unicode scalar value and does not show the byte-wise splitting of the source: `-é` splits into its two UTF-8 bytes.
- The headers' default arguments are not modelled: every parameter is explicit. `setRequired` and `setDeprecated` default to true, and `setValueDelimiter` defaults to "".
- `ArgumentParser::parse` (src/ArgumentParser.cpp:32-51): every branch of its loop is empty, so it has no effect to model.
- `ArgumentParser` copy and move: their helpers `selfCopy` and `selfMove` are empty.
- No argument registry, value binding, arity consumption, required or deprecated check, or error-policy dispatch exists in the code. None is invented here.
- src/parser.cpp and include/argparse/parser.hpp: `ErrorAction` is only stored, and `addArgument` is empty.
- StringArg has no fields or logic.
- src/args/Boolean.cpp is a stale copy of BooleanArg that conflicts with BooleanArg.cpp.
- Version reporting, export macros, umbrella headers and the demo program: they are constants, console I/O and build glue.
- `getIndicator`, `getValueDelimiter`, `getHelp` and `getOutput` return `c_str()` pointers or raw pointers. The model reads the fields directly. Pointer lifetimes are not modelled.
- The output binding of `BooleanArg` is an opaque reference id that is never dereferenced. The destructor that nulls it is left out, as are all destructors.
- `BooleanArg` copy and move assignment, and `BooleanArg::getValue`, are declared in the header but never defined in BooleanArg.cpp.
- `bad_alloc` and `noexcept` are not modelled.
- Exceptions other than `BooleanArg::setNArgs`'s are error tags (`SplitError`, `ConfigError`). Their C++ types (`runtime_error`, `invalid_argument`) and message strings are dropped. The `setNArgs` exception keeps its message.
- `UnixStyle` and `WindowsStyle` make the inherited setters protected. The model offers no setter on their fixed styles.
- The header declares `mShortIndicator` as a string, while UnixStyle.cpp defines it as a `char`. This is a compile-level clash with no behaviour to model. The model uses the character `-`.
- The C++ standard leaves a moved-from `std::string` or `std::list` valid but unspecified. The model empties them, and no contract relies on that. For the same reason, the moved-from object of a style's move constructor is not modelled.
- `OptionStyle.SplitArg`, `OptionStyle.SplitArgIntended`, `UnixStyle.SplitArg` and `ArgumentParser.SplitOption` require the token to be shorter than `npos`. Every `std::string` is, since `max_size()` is below `npos`.
- `Nargs.ToStringAsWritten` follows the self-recursion of `to_string` only to a fuel depth. A stack overflow is not modelled. The lemma shows that no depth ever produces an answer.

## Findings

| source | as written | input that shows it | evidently intended | confidence | as-written member | corrected member |
|---|---|---|---|---|---|---|
| src/OptionStyles/OptionStyle.cpp:76 | the "option wasn't provided" test reads the caller's incoming `Option`, not the computed name `Opt` | Windows style, token "/name:value", incoming Option "": raises; token "/:x", incoming Option "keep": returns the empty name | test `Opt.empty()` | high; not executed | `OptionStyle.SplitArg`, shown by `OptionStyle.IncomingOptionDefect` | `OptionStyle.SplitArgIntended` |
| src/OptionStyles/OptionStyle.cpp:65-75 | the delimiter is searched for from index 0. A hit at 0 is taken as "none", and `DelimPos - |indicator|` wraps below zero | indicator "a-", delimiter "-", token "a-x": ("x","x"). Indicator and delimiter "/", token "/a/b": ("a/b","") | search only after the indicator, and treat only the empty delimiter as "no value" | medium; not executed | `OptionStyle.SplitArg`, shown by `OptionStyle.DelimiterSearchDefect` | `OptionStyle.SplitArgIntended` |
| src/args/NARGS.cpp:27 | unqualified `to_string` resolves to `argparse::to_string` itself and recurses on the same value. As a result, `BooleanArg::setNArgs` (src/args/BooleanArg.cpp:70) never reaches its throw for counts 2 to 2^32-4 | `to_string(5)`; `setNArgs(2)` on a BooleanArg | `std::to_string`, the decimal rendering | high; not executed | `Nargs.ToStringAsWritten`, shown by `Nargs.ToStringAsWrittenDiverges` and `BooleanArg.RejectionMessageAsWrittenDiverges` | `Nargs.ToStringIntended`, proved injective by `Nargs.ToStringIntendedInjective` and used by `BooleanArg.RejectionMessage` |

=== FILE: argument_base.dfy ===
/** The fields and operations every argument shares (args/IArgument.cpp, with
    the field set of its header: help, NArgs, required, deprecated). */
module ArgumentBase {
  import opened Nargs
  import opened Helpers

  /** IArgument's fields. The constructor, IArgument(Help = "", NArgs =
      NO_MORE, IsRequired = false, IsDeprecated = false), stores each one
      verbatim and is this datatype's constructor. */
  datatype Argument = Argument(help: string, nargs: uint32, required: bool, deprecated: bool)

  /** The state the move operations leave in the moved-from object's basic
      fields: the constructor defaults. */
  predicate IsReset(a: Argument) {
    a.nargs == NO_MORE && !a.required && !a.deprecated
  }

  function SetHelp(a: Argument, help: string): (r: Argument)
    ensures r.help == help
    ensures r.nargs == a.nargs && r.required == a.required && r.deprecated == a.deprecated
  {
    a.(help := help)
  }

  /** setNArgs stores any uint32; no value is rejected at this level. */
  function SetNArgs(a: Argument, nargs: uint32): (r: Argument)
    ensures r.nargs == nargs
    ensures r.help == a.help && r.required == a.required && r.deprecated == a.deprecated
  {
    a.(nargs := nargs)
  }

  function SetRequired(a: Argument, required: bool): (r: Argument)
    ensures r.required == required
    ensures r.help == a.help && r.nargs == a.nargs && r.deprecated == a.deprecated
  {
    a.(required := required)
  }

  function SetDeprecated(a: Argument, deprecated: bool): (r: Argument)
    ensures r.deprecated == deprecated
    ensures r.help == a.help && r.nargs == a.nargs && r.required == a.required
  {
    a.(deprecated := deprecated)
  }

  /** selfCopy, and so the copy constructor: every field taken from `src`. */
  function Copy(src: Argument): (r: Argument)
    ensures r == src
  {
    Argument(src.help, src.nargs, src.required, src.deprecated)
  }

  /** Copy assignment. `aliased` stands for `this == &Right`, in which case
      the object is left alone. */
  function CopyAssign(dst: Argument, src: Argument, aliased: bool): (r: Argument)
    requires aliased ==> dst == src
    ensures r == src
    ensures aliased ==> r == dst
  {
    if aliased then dst else Copy(src)
  }

  /** selfMove, and so the move constructor: the pair (new object, moved-from
      object). The basic fields are exchanged with their defaults; the
      moved-from help text is left empty, one of the states std::string
      allows. */
  function Move(src: Argument): (r: (Argument, Argument))
    ensures r.0 == src
    ensures IsReset(r.1)
  {
    var (nargs, srcNArgs) := ExchangeBasic(src.nargs, NO_MORE);
    var (required, srcRequired) := ExchangeBasic(src.required, false);
    var (deprecated, srcDeprecated) := ExchangeBasic(src.deprecated, false);
    (Argument(src.help, nargs, required, deprecated),
     Argument([], srcNArgs, srcRequired, srcDeprecated))
  }

  /** Move assignment: the pair (this, Right) afterwards. A self move is
      caught by the `this == &Right` test and changes nothing. */
  function MoveAssign(dst: Argument, src: Argument, aliased: bool): (r: (Argument, Argument))
    requires aliased ==> dst == src
    ensures aliased ==> r == (dst, src)
    ensures !aliased ==> r.0 == src && IsReset(r.1)
  {
    if aliased then (dst, src) else Move(src)
  }
}

=== FILE: argument_parser.dfy ===
/** ArgumentParser::splitOption (ArgumentParser.cpp), the parser's own older
    splitter: no indicator handling, split at the first '=' or ':'. */
module ArgumentParser {
  import opened StdString
  import opened OptionStyle

  /** The characters splitOption splits at. */
  const VALUE_DELIMS: string := "=:"

  /** splitOption: Option becomes everything before the first '=' or ':' and
      Value everything after it; with neither present Option becomes the
      whole token and Value keeps the caller's value. It never throws. */
  function SplitOption(arg: string, option: string, value: string): (r: Parts)
    requires |arg| < NPOS
    ensures r.option <= arg
    ensures '=' !in r.option && ':' !in r.option
    ensures |r.option| < |arg| ==>
      && arg[|r.option|] in VALUE_DELIMS
      && r.value == arg[|r.option| + 1..]
      && arg == r.option + [arg[|r.option|]] + r.value
    ensures |r.option| == |arg| ==> r.option == arg && r.value == value
  {
    var delimPos := FindFirstOf(arg, VALUE_DELIMS, 0);
    var newValue := if delimPos.At? then arg[delimPos.index + 1..] else value;
    Parts(Substr(arg, 0, ToSize(delimPos)), newValue)
  }

  /** Round trip: a delimiter-free prefix, one delimiter and any rest split
      back into that prefix and that rest, whatever the rest contains. */
  lemma SplitOptionRoundTrip(prefix: string, delim: char, rest: string, option: string, value: string)
    requires '=' !in prefix && ':' !in prefix && delim in VALUE_DELIMS
    requires |prefix| + |rest| + 1 < NPOS
    ensures SplitOption(prefix + [delim] + rest, option, value) == Parts(prefix, rest)
  {
    var arg := prefix + [delim] + rest;
    assert arg[|prefix|] == delim;
    assert forall j :: 0 <= j < |prefix| ==> arg[j] == prefix[j];
    var p := FindFirstOf(arg, VALUE_DELIMS, 0);
    assert p == At(|prefix|);
    assert arg[..|prefix|] == prefix && arg[|prefix| + 1..] == rest;
  }

  /** With neither delimiter present the whole token is the option and the
      caller's value is kept. */
  lemma SplitOptionWithoutDelimiter(arg: string, option: string, value: string)
    requires '=' !in arg && ':' !in arg && |arg| < NPOS
    ensures SplitOption(arg, option, value) == Parts(arg, value)
  {
  }

  /** With mixed delimiters the first one wins, and indicators are not
      stripped. */
  lemma SplitOptionExamples()
    ensures SplitOption("a:b=c", "", "v") == Parts("a", "b=c")
    ensures SplitOption("a=b:c", "", "v") == Parts("a", "b:c")
    ensures SplitOption("--x=1", "", "v") == Parts("--x", "1")
  {
    SplitOptionRoundTrip("a", ':', "b=c", "", "v");
    assert "a" + [':'] + "b=c" == "a:b=c";
    SplitOptionRoundTrip("a", '=', "b:c", "", "v");
    assert "a" + ['='] + "b:c" == "a=b:c";
    SplitOptionRoundTrip("--x", '=', "1", "", "v");
    assert "--x" + ['='] + "1" == "--x=1";
  }
}

=== FILE: boolean_arg.dfy ===
/** The Boolean argument (args/BooleanArg.cpp): an optional argument bound to
    a caller's bool, with a store value and a default value, that accepts
    only the arities a flag can have. */
module BooleanArg {
  import opened Results
  import opened Nargs
  import opened Helpers
  import opened ArgumentBase
  import OptionalArgument

  /** The bool* output binding: an opaque reference to caller storage that
      the model never dereferences. */
  datatype OutputRef = Null | Bound(id: nat)

  datatype BooleanArgument = BooleanArgument(
    opt: OptionalArgument.OptionalArgument,
    output: OutputRef,
    storeValue: bool,
    defaultValue: bool)
  {
    function NArgs(): uint32 { opt.base.nargs }
  }

  /** The invalid_argument thrown by setNArgs, with its message. */
  datatype ArgError = InvalidNArgs(message: string)

  /** The whitelist of setNArgs: 0, 1, NO_MORE and ZERO_OR_ONE. */
  predicate AcceptsNArgs(v: uint32) {
    v == 0 || v == 1 || v == NO_MORE || v == ZERO_OR_ONE
  }

  /** The invariant every BooleanArg keeps: its arity is on the whitelist. */
  predicate Valid(b: BooleanArgument) {
    AcceptsNArgs(b.NArgs())
  }

  /** `b` and `c` agree on every field but the arity. */
  predicate SameExceptNArgs(b: BooleanArgument, c: BooleanArgument) {
    && b.opt.flags == c.opt.flags
    && b.opt.base.help == c.opt.base.help
    && b.opt.base.required == c.opt.base.required
    && b.opt.base.deprecated == c.opt.base.deprecated
    && b.output == c.output
    && b.storeValue == c.storeValue
    && b.defaultValue == c.defaultValue
  }

  const REJECTION_PREFIX: string := "argparse::BooleanArg::setNArgs(uint32_t): invalid NARgs value - "

  /** The message of setNArgs' exception, built with the intended to_string. */
  function RejectionMessage(v: uint32): (r: string)
    ensures |REJECTION_PREFIX| < |r| && r[..|REJECTION_PREFIX|] == REJECTION_PREFIX
    ensures IsSentinel(v) ==> r[|REJECTION_PREFIX|..] == SentinelName(v)
    ensures !IsSentinel(v) ==>
      var tail := r[|REJECTION_PREFIX|..]; IsNumeral(tail) && ParseDecimal(tail) == v
  {
    REJECTION_PREFIX + ToStringIntended(v)
  }

  /** The message as written: argparse::to_string recurses without end on
      every value but a sentinel, so building it needs `fuel`. */
  function RejectionMessageAsWritten(v: uint32, fuel: nat): (r: Option<string>)
    ensures r.Some? ==> IsSentinel(v) && r.value == RejectionMessage(v)
  {
    match ToStringAsWritten(v, fuel)
    case Some(name) => Some(REJECTION_PREFIX + name)
    case None => None
  }

  /** As written, of all the values setNArgs rejects only ZERO_AND_MORE and
      ONE_AND_MORE reach the throw; for the counts 2 to MAX_EXACT building
      the message never finishes. */
  lemma RejectionMessageAsWrittenDiverges(v: uint32, fuel: nat)
    requires !AcceptsNArgs(v)
    ensures v == ZERO_AND_MORE || v == ONE_AND_MORE ==>
      RejectionMessageAsWritten(v, fuel) == Some(RejectionMessage(v))
    ensures 2 <= v <= MAX_EXACT ==> RejectionMessageAsWritten(v, fuel) == None
  {
    ToStringAsWrittenDiverges(v, fuel);
  }

  /** setNArgs: accepts exactly 0, 1 and 2^32 - 1 and stores the value;
      anything else throws and leaves the object as it was. */
  function SetNArgs(b: BooleanArgument, v: uint32): (r: Outcome<BooleanArgument, ArgError>)
    ensures r.raised.None? <==> v == 0 || v == 1 || v == 0xFFFF_FFFF
    ensures r.raised.None? ==> r.state.NArgs() == v && SameExceptNArgs(r.state, b)
    ensures r.raised.Some? ==> r.state == b && r.raised == Some(InvalidNArgs(RejectionMessage(v)))
    ensures r.raised.None? ==> Valid(r.state)
    ensures Valid(b) ==> Valid(r.state)
  {
    if AcceptsNArgs(v) then
      Done(b.(opt := b.opt.(base := ArgumentBase.SetNArgs(b.opt.base, v))))
    else Raise(b, InvalidNArgs(RejectionMessage(v)))
  }

  function SetStoreValue(b: BooleanArgument, value: bool): (r: BooleanArgument)
    ensures r.storeValue == value
    ensures r.opt == b.opt && r.output == b.output && r.defaultValue == b.defaultValue
    ensures Valid(b) ==> Valid(r)
  {
    b.(storeValue := value)
  }

  function SetDefaultValue(b: BooleanArgument, value: bool): (r: BooleanArgument)
    ensures r.defaultValue == value
    ensures r.opt == b.opt && r.output == b.output && r.storeValue == b.storeValue
    ensures Valid(b) ==> Valid(r)
  {
    b.(defaultValue := value)
  }

  /** The constructor: the optional-argument part stores NArgs unchecked,
      then the body calls setNArgs, so construction fails exactly when
      setNArgs would reject NArgs. The binding is the address of a caller's
      bool reference, which is never null. */
  function New(
    output: OutputRef, flags: seq<string>, help: string, nargs: uint32,
    required: bool, deprecated: bool, storeValue: bool, defaultValue: bool)
    : (r: Result<BooleanArgument, ArgError>)
    requires output.Bound?
    ensures r.Ok? <==> AcceptsNArgs(nargs)
    ensures r.Err? ==> r.error == InvalidNArgs(RejectionMessage(nargs))
    ensures r.Ok? ==> Valid(r.value)
    ensures r.Ok? ==>
      r.value == BooleanArgument(
        OptionalArgument.OptionalArgument(Argument(help, nargs, required, deprecated), flags),
        output, storeValue, defaultValue)
  {
    var b := BooleanArgument(
      OptionalArgument.New(flags, help, nargs, required, deprecated), output, storeValue, defaultValue);
    var checked := SetNArgs(b, nargs);
    if checked.raised.Some? then Err(checked.raised.value)
    else Ok(SetDefaultValue(SetStoreValue(checked.state, storeValue), defaultValue))
  }

  /** Construction and setNArgs apply the same whitelist. */
  lemma NewAgreesWithSetNArgs(
    b: BooleanArgument, output: OutputRef, flags: seq<string>, help: string, nargs: uint32,
    required: bool, deprecated: bool, storeValue: bool, defaultValue: bool)
    requires output.Bound?
    ensures New(output, flags, help, nargs, required, deprecated, storeValue, defaultValue).Ok?
        <==> SetNArgs(b, nargs).raised.None?
  {
  }

  /** The copy constructor: the optional-argument part is copied, then
      selfCopy duplicates the binding (both objects then refer to the same
      caller storage), the store value and the default value. */
  function Copy(src: BooleanArgument): (r: BooleanArgument)
    ensures r == src
  {
    BooleanArgument(OptionalArgument.Copy(src.opt), src.output, src.storeValue, src.defaultValue)
  }

  /** The move constructor: the pair (new object, moved-from object). The
      new object gets every field; the moved-from one keeps no binding, has
      store value true, default value false and the reset shared fields, so
      it is again a valid BooleanArg. */
  function Move(src: BooleanArgument): (r: (BooleanArgument, BooleanArgument))
    ensures r.0 == src
    ensures r.1.output == Null && r.1.storeValue && !r.1.defaultValue
    ensures IsReset(r.1.opt.base)
    ensures Valid(r.1)
    ensures Valid(src) ==> Valid(r.0)
  {
    var (opt, srcOpt) := OptionalArgument.Move(src.opt);
    var (output, srcOutput) := ExchangeBasic(src.output, Null);
    var (storeValue, srcStoreValue) := ExchangeBasic(src.storeValue, true);
    var (defaultValue, srcDefaultValue) := ExchangeBasic(src.defaultValue, false);
    (BooleanArgument(opt, output, storeValue, defaultValue),
     BooleanArgument(srcOpt, srcOutput, srcStoreValue, srcDefaultValue))
  }
}

=== FILE: helpers.dfy ===
/** helpers.hpp. */
module Helpers {

  /** exchange_basic(Obj, NewValue): the pair (value returned, Obj's value
      afterwards), i.e. Obj's old value and NewValue. */
  function ExchangeBasic<T>(obj: T, newValue: T): (r: (T, T))
    ensures r.0 == obj && r.1 == newValue
  {
    (obj, newValue)
  }

  /** Exchanging the returned value back in restores the object and hands
      back the value that was put in. */
  lemma ExchangeBack<T>(obj: T, newValue: T)
    ensures var (returned, held) := ExchangeBasic(obj, newValue); ExchangeBasic(held, returned) == (newValue, obj)
  {
  }
}

=== FILE: nargs.dfy ===
/** Arity values (args/NARGS.hpp) and their names (args/NARGS.cpp). An arity
    is a uint32: an exact count, or one of the sentinels reserved at the top
    of the range; NO_MORE shares its value with the exact count 0. */
module Nargs {
  import opened Results

  type uint32 = x: int | 0 <= x < 0x1_0000_0000

  const UINT32_MAX: uint32 := 0xFFFF_FFFF

  const NO_MORE: uint32 := 0
  const ZERO_OR_ONE: uint32 := UINT32_MAX - 0
  const ZERO_AND_MORE: uint32 := UINT32_MAX - 1
  const ONE_AND_MORE: uint32 := UINT32_MAX - 2

  /** The largest exact count that collides with no sentinel. */
  const MAX_EXACT: uint32 := UINT32_MAX - 3

  predicate IsSentinel(v: uint32) {
    v == NO_MORE || v == ZERO_OR_ONE || v == ZERO_AND_MORE || v == ONE_AND_MORE
  }

  /** What an NArgs value means, as a sum type. */
  datatype Arity = Exact(count: nat) | ZeroOrOne | ZeroOrMore | OneOrMore

  /** The arities a uint32 can carry: exact counts up to MAX_EXACT. */
  predicate Encodable(a: Arity) {
    a.Exact? ==> a.count <= MAX_EXACT
  }

  /** Reads an NArgs value: the three top values are the open-ended modes and
      everything else, NO_MORE included, is an exact count. */
  function Decode(v: uint32): (a: Arity)
    ensures Encodable(a)
    ensures a.Exact? <==> v <= MAX_EXACT
    ensures a.Exact? ==> a.count == v
    ensures v == NO_MORE ==> a == Exact(0)
  {
    if v == ZERO_OR_ONE then ZeroOrOne
    else if v == ZERO_AND_MORE then ZeroOrMore
    else if v == ONE_AND_MORE then OneOrMore
    else Exact(v)
  }

  /** Writes an arity as the uint32 the source stores. */
  function Encode(a: Arity): uint32
    requires Encodable(a)
  {
    match a
    case Exact(n) => n
    case ZeroOrOne => ZERO_OR_ONE
    case ZeroOrMore => ZERO_AND_MORE
    case OneOrMore => ONE_AND_MORE
  }

  /** The encoding is a bijection between uint32 and the encodable arities:
      no exact count up to MAX_EXACT is mistaken for an open-ended mode. */
  lemma EncodingRoundTrips(v: uint32, a: Arity)
    ensures Encode(Decode(v)) == v
    ensures Encodable(a) ==> Decode(Encode(a)) == a
  {
  }

  /** The four sentinels are pairwise distinct, and NO_MORE is the count 0. */
  lemma SentinelsDistinct()
    ensures NO_MORE == 0 && ZERO_OR_ONE == 0xFFFF_FFFF
    ensures ZERO_AND_MORE == 0xFFFF_FFFE && ONE_AND_MORE == 0xFFFF_FFFD
    ensures |{NO_MORE, ZERO_OR_ONE, ZERO_AND_MORE, ONE_AND_MORE}| == 4
  {
  }

  const NAME_PREFIX: string := "argparse::NARGS::"

  /** to_string on the four sentinels: each one's qualified name. */
  function SentinelName(v: uint32): (r: string)
    requires IsSentinel(v)
    ensures |NAME_PREFIX| < |r| && r[..|NAME_PREFIX|] == NAME_PREFIX
  {
    if v == NO_MORE then "argparse::NARGS::NO_MORE"
    else if v == ZERO_OR_ONE then "argparse::NARGS::ZERO_OR_ONE"
    else if v == ZERO_AND_MORE then "argparse::NARGS::ZERO_AND_MORE"
    else "argparse::NARGS::ONE_AND_MORE"
  }

  /** The sentinel names are pairwise distinct. */
  lemma SentinelNamesInjective(a: uint32, b: uint32)
    requires IsSentinel(a) && IsSentinel(b) && SentinelName(a) == SentinelName(b)
    ensures a == b
  {
  }

  /** to_string as written: its default branch calls argparse::to_string
      itself rather than std::to_string, so it recurses on the same value.
      `fuel` bounds how deep the model follows the recursion; None means the
      bound was reached without an answer. */
  function ToStringAsWritten(v: uint32, fuel: nat): (r: Option<string>)
    ensures r.Some? ==> IsSentinel(v) && r.value == SentinelName(v)
    decreases fuel
  {
    if IsSentinel(v) then Some(SentinelName(v))
    else if fuel == 0 then None
    else ToStringAsWritten(v, fuel - 1)
  }

  /** As written, to_string returns for the sentinels and for nothing else:
      on any other value no depth of recursion is enough. */
  lemma {:induction false} ToStringAsWrittenDiverges(v: uint32, fuel: nat)
    ensures IsSentinel(v) ==> ToStringAsWritten(v, fuel) == Some(SentinelName(v))
    ensures !IsSentinel(v) ==> ToStringAsWritten(v, fuel) == None
  {
    if fuel > 0 {
      ToStringAsWrittenDiverges(v, fuel - 1);
    }
  }

  predicate IsDigit(c: char) {
    '0' <= c <= '9'
  }

  function DigitChar(d: nat): (c: char)
    requires d < 10
    ensures IsDigit(c)
  {
    ('0' as int + d) as char
  }

  function DigitValue(c: char): nat
    requires IsDigit(c)
  {
    c as int - '0' as int
  }

  /** The decimal rendering std::to_string gives an unsigned value. */
  function Decimal(n: nat): (r: string)
    ensures |r| >= 1
    ensures forall i :: 0 <= i < |r| ==> IsDigit(r[i])
    decreases n
  {
    if n < 10 then [DigitChar(n)] else Decimal(n / 10) + [DigitChar(n % 10)]
  }

  /** A non-empty string of decimal digits. */
  predicate IsNumeral(s: string) {
    |s| >= 1 && forall i :: 0 <= i < |s| ==> IsDigit(s[i])
  }

  /** Reads a string of digits as a number. */
  function ParseDecimal(s: string): nat
    requires forall i :: 0 <= i < |s| ==> IsDigit(s[i])
  {
    if s == [] then 0 else 10 * ParseDecimal(s[..|s| - 1]) + DigitValue(s[|s| - 1])
  }

  /** Reading back a decimal rendering gives the number rendered. */
  lemma {:induction false} DecimalRoundTrip(n: nat)
    ensures ParseDecimal(Decimal(n)) == n
  {
    var r := Decimal(n);
    if n >= 10 {
      DecimalRoundTrip(n / 10);
      assert r[..|r| - 1] == Decimal(n / 10);
    }
  }

  /** to_string as evidently intended: the sentinel names, and the decimal
      rendering of every other value. */
  function ToStringIntended(v: uint32): (r: string)
    ensures IsSentinel(v) ==> r == SentinelName(v)
    ensures !IsSentinel(v) ==> IsNumeral(r) && ParseDecimal(r) == v
  {
    if IsSentinel(v) then SentinelName(v)
    else DecimalRoundTrip(v); Decimal(v)
  }

  /** The intended rendering names every uint32 differently. */
  lemma ToStringIntendedInjective(a: uint32, b: uint32)
    requires ToStringIntended(a) == ToStringIntended(b)
    ensures a == b
  {
    if IsSentinel(a) && IsSentinel(b) {
      SentinelNamesInjective(a, b);
    }
  }
}

=== FILE: option_style.dfy ===
/** The generic option style (OptionStyles/OptionStyle.cpp): a non-empty
    indicator marking a token as an option, and a value delimiter separating
    the option's name from an inline value. */
module OptionStyle {
  import opened Results
  import opened StdString

  /** The exceptions a split can raise, one tag per message of the source. */
  datatype SplitError =
    | NotAnOption                        // "Not an optional"
    | MissingOptionName                  // "Option wasn't provided" / "Invalid option (option not provided)"
    | DelimiterAsName                    // "Value delimiter ("=") cannot be an option"
    | UnsupportedDelimiterInShortOption  // "UnixStyle doesn't support value delimiters in short options"

  /** The invalid_argument thrown by setIndicator. */
  datatype ConfigError = EmptyIndicator

  /** The two out-parameters of splitArg: the option name and the inline value. */
  datatype Parts = Parts(option: string, value: string)

  datatype Style = Style(indicator: string, delimiter: string)

  /** Class invariant: the indicator is never empty. */
  predicate Valid(s: Style) {
    s.indicator != []
  }

  /** setIndicator: rejects the empty string and otherwise stores the value verbatim. */
  function SetIndicator(s: Style, v: string): (r: Outcome<Style, ConfigError>)
    ensures r.raised == Some(EmptyIndicator) <==> v == []
    ensures r.raised.Some? ==> r.state == s
    ensures r.raised.None? ==> r.state.indicator == v && r.state.delimiter == s.delimiter
    ensures Valid(s) ==> Valid(r.state)
    ensures r.raised.None? ==> Valid(r.state)
  {
    if v == [] then Raise(s, EmptyIndicator) else Done(s.(indicator := v))
  }

  /** setValueDelimiter: any delimiter, the empty one included, is accepted. */
  function SetValueDelimiter(s: Style, v: string): (r: Style)
    ensures r.delimiter == v && r.indicator == s.indicator
    ensures Valid(s) ==> Valid(r)
  {
    s.(delimiter := v)
  }

  /** The constructor: starts from empty strings and calls both setters, so
      construction fails exactly when the indicator is empty. */
  function New(indicator: string, delimiter: string): (r: Result<Style, ConfigError>)
    ensures r.Ok? <==> indicator != []
    ensures r.Ok? ==> r.value == Style(indicator, delimiter) && Valid(r.value)
    ensures r.Err? ==> r.error == EmptyIndicator
  {
    var withIndicator := SetIndicator(Style([], []), indicator);
    if withIndicator.raised.Some? then Err(withIndicator.raised.value)
    else Ok(SetValueDelimiter(withIndicator.state, delimiter))
  }

  /** Copy construction; the move constructor transfers the same two strings
      into the new object, so its result is this copy as well. */
  function Copy(s: Style): (r: Style)
    ensures r.indicator == s.indicator && r.delimiter == s.delimiter
    ensures Valid(s) ==> Valid(r)
  {
    Style(s.indicator, s.delimiter)
  }

  /** The comparison loop of isArgOptional, from index `i` on. */
  function MatchesFrom(indicator: string, arg: string, i: nat): (r: bool)
    requires |indicator| <= |arg|
    ensures r <==> forall j :: i <= j < |indicator| ==> indicator[j] == arg[j]
    decreases |indicator| - i
  {
    i >= |indicator| || (indicator[i] == arg[i] && MatchesFrom(indicator, arg, i + 1))
  }

  /** isArgOptional: the token is strictly longer than the indicator and starts
      with it, so a token equal to the indicator is positional. */
  function IsArgOptional(s: Style, arg: string): (r: bool)
    ensures r <==> |s.indicator| < |arg| && arg[..|s.indicator|] == s.indicator
  {
    |arg| > |s.indicator| && MatchesFrom(s.indicator, arg, 0)
  }

  /** splitArg as written. The delimiter is searched for from index 0, and a
      hit at 0 counts as "no delimiter"; the empty delimiter always hits at 0,
      so it leaves the whole rest of the token as the name and the value
      empty. The name's length is the size_t difference DelimPos - |indicator|.
      The "option wasn't provided" test reads the caller's incoming Option,
      not the computed name. Outputs are assigned only on return. */
  function SplitArg(s: Style, arg: string, option: string, value: string): (r: Outcome<Parts, SplitError>)
    requires Valid(s) && |arg| < NPOS
    ensures r.raised.Some? ==> r.state == Parts(option, value)
    ensures r.raised == Some(NotAnOption) <==> !IsArgOptional(s, arg)
    ensures r.raised == Some(MissingOptionName) <==> IsArgOptional(s, arg) && option == []
    ensures r.raised.None? <==> IsArgOptional(s, arg) && option != []
    ensures r.raised.None? && s.delimiter == [] ==> r.state == Parts(arg[|s.indicator|..], [])
  {
    if !IsArgOptional(s, arg) then Raise(Parts(option, value), NotAnOption)
    else
      var found := Find(arg, s.delimiter, 0);
      var delimPos := if found == At(0) then Npos else found;
      var opt := Substr(arg, |s.indicator|, SizeSub(ToSize(delimPos), |s.indicator|));
      if option == [] then Raise(Parts(option, value), MissingOptionName)
      else
        var val := if delimPos.Npos? then [] else arg[delimPos.index + |s.delimiter|..];
        Done(Parts(opt, val))
  }

  /** splitArg as evidently intended: the delimiter is searched for only
      after the indicator, the empty delimiter means "no inline value", and
      the computed name is the one tested for emptiness. */
  function SplitArgIntended(s: Style, arg: string, option: string, value: string): (r: Outcome<Parts, SplitError>)
    requires Valid(s) && |arg| < NPOS
    ensures r.raised.Some? ==> r.state == Parts(option, value)
    ensures r.raised == Some(NotAnOption) <==> !IsArgOptional(s, arg)
    ensures r.raised.None? <==>
      IsArgOptional(s, arg) && !(s.delimiter != [] && OccursAt(arg, s.delimiter, |s.indicator|))
    ensures r.raised.Some? ==> r.raised == Some(NotAnOption) || r.raised == Some(MissingOptionName)
    ensures r.raised.None? ==> r.state.option != []
    ensures r.raised.None? && s.delimiter != [] ==>
      forall j :: |s.indicator| <= j < |s.indicator| + |r.state.option| ==> !OccursAt(arg, s.delimiter, j)
    ensures r.raised.None? ==>
      || arg == s.indicator + r.state.option + s.delimiter + r.state.value
      || (arg == s.indicator + r.state.option && r.state.value == [])
    ensures r.raised.None? && s.delimiter == [] ==> r.state == Parts(arg[|s.indicator|..], [])
  {
    if !IsArgOptional(s, arg) then Raise(Parts(option, value), NotAnOption)
    else
      var delimPos := if s.delimiter == [] then Npos else Find(arg, s.delimiter, |s.indicator|);
      var opt := Substr(arg, |s.indicator|, SizeSub(ToSize(delimPos), |s.indicator|));
      if opt == [] then Raise(Parts(option, value), MissingOptionName)
      else
        var val := if delimPos.Npos? then [] else arg[delimPos.index + |s.delimiter|..];
        Done(Parts(opt, val))
  }

  /** Where no delimiter occurrence starts inside the indicator, the code as
      written differs from the intended split only by its test of the
      incoming Option: an empty one always raises MissingOptionName; with a
      non-empty one it returns the intended parts where the intended split
      succeeds, and an empty name where the intended split finds none. */
  lemma SplitArgVersusIntended(s: Style, arg: string, option: string, value: string)
    requires Valid(s) && |arg| < NPOS && IsArgOptional(s, arg)
    requires s.delimiter == [] || forall j :: 0 <= j < |s.indicator| ==> !OccursAt(arg, s.delimiter, j)
    ensures option == [] ==> SplitArg(s, arg, option, value).raised == Some(MissingOptionName)
    ensures option != [] && SplitArgIntended(s, arg, option, value).raised.None? ==>
      SplitArg(s, arg, option, value) == SplitArgIntended(s, arg, option, value)
    ensures option != [] && SplitArgIntended(s, arg, option, value).raised.Some? ==>
      SplitArg(s, arg, option, value) == Done(Parts([], arg[|s.indicator| + |s.delimiter|..]))
  {
    if option != [] {
      var found := Find(arg, s.delimiter, 0);
      var delimPos := if found == At(0) then Npos else found;
      var intendedPos := if s.delimiter == [] then Npos else Find(arg, s.delimiter, |s.indicator|);
      if s.delimiter != [] {
        FindSkips(arg, s.delimiter, 0, |s.indicator|);
      }
      assert delimPos == intendedPos;
    }
  }

  /** As written, a delimiter occurrence that starts inside the indicator is
      taken as the value delimiter: at index 0 it is remapped to "none"; at
      any later index inside the indicator DelimPos - |indicator| wraps
      around, substr clamps, and the value starts inside the indicator. */
  lemma SplitArgDelimiterInsideIndicator(s: Style, arg: string, option: string, value: string, p: nat)
    requires Valid(s) && |arg| < NPOS && IsArgOptional(s, arg) && option != []
    requires s.delimiter != [] && p < |s.indicator| && OccursAt(arg, s.delimiter, p)
    requires forall j :: 0 <= j < p ==> !OccursAt(arg, s.delimiter, j)
    ensures p == 0 ==> SplitArg(s, arg, option, value) == Done(Parts(arg[|s.indicator|..], []))
    ensures p > 0 ==>
      SplitArg(s, arg, option, value) == Done(Parts(arg[|s.indicator|..], arg[p + |s.delimiter|..]))
  {
    var found := Find(arg, s.delimiter, 0);
    assert found == At(p);
    var ind := |s.indicator|;
    var count := if p == 0 then SizeSub(NPOS, ind) else SizeSub(p, ind);
    assert count >= |arg| - ind;
    assert Substr(arg, ind, count) == arg[ind..];
  }

  /** The incoming-Option defect on the Windows-shaped style "/" and ":": a
      fresh empty Option makes every split fail, and a non-empty one lets a
      token with no name through. */
  lemma IncomingOptionDefect()
    ensures SplitArg(Style("/", ":"), "/name:value", "", "").raised == Some(MissingOptionName)
    ensures SplitArgIntended(Style("/", ":"), "/name:value", "", "") == Done(Parts("name", "value"))
    ensures SplitArg(Style("/", ":"), "/:x", "keep", "") == Done(Parts("", "x"))
    ensures SplitArgIntended(Style("/", ":"), "/:x", "keep", "").raised == Some(MissingOptionName)
  {
    FindChar("/name:value", ':', 0, 5);
    FindChar("/name:value", ':', 1, 5);
    assert Substr("/name:value", 1, SizeSub(5, 1)) == "name";
    assert "/name:value"[6..] == "value";
    FindChar("/:x", ':', 0, 1);
    FindChar("/:x", ':', 1, 1);
    assert Substr("/:x", 1, SizeSub(1, 1)) == "";
    assert "/:x"[2..] == "x";
  }

  /** The search-from-zero defect: a delimiter occurrence inside the indicator
      is used (indicator "a-", delimiter "-"), and one at index 0 hides every
      later one (indicator and delimiter both "/"). */
  lemma DelimiterSearchDefect()
    ensures SplitArg(Style("a-", "-"), "a-x", "o", "") == Done(Parts("x", "x"))
    ensures SplitArgIntended(Style("a-", "-"), "a-x", "o", "") == Done(Parts("x", ""))
    ensures SplitArg(Style("/", "/"), "/a/b", "o", "") == Done(Parts("a/b", ""))
    ensures SplitArgIntended(Style("/", "/"), "/a/b", "o", "") == Done(Parts("a", "b"))
  {
    FindChar("a-x", '-', 0, 1);
    SplitArgDelimiterInsideIndicator(Style("a-", "-"), "a-x", "o", "", 1);
    assert "a-x"[2..] == "x";
    FindCharAbsent("a-x", '-', 2);
    assert Substr("a-x", 2, SizeSub(NPOS, 2)) == "x";
    FindChar("/a/b", '/', 0, 0);
    SplitArgDelimiterInsideIndicator(Style("/", "/"), "/a/b", "o", "", 0);
    assert "/a/b"[1..] == "a/b";
    FindChar("/a/b", '/', 1, 2);
    assert Substr("/a/b", 1, SizeSub(2, 1)) == "a";
    assert "/a/b"[3..] == "b";
  }
}

=== FILE: optional_argument.dfy ===
/** An argument with a list of flag spellings (args/IOptionalArgument.cpp). */
module OptionalArgument {
  import opened Nargs
  import opened ArgumentBase

  /** The flags list (std::list<std::string>) on top of the shared fields. */
  datatype OptionalArgument = OptionalArgument(base: Argument, flags: seq<string>)

  /** setFlags: the list is stored verbatim, with no de-duplication and no
      check of its spellings. */
  function SetFlags(o: OptionalArgument, flags: seq<string>): (r: OptionalArgument)
    ensures r.flags == flags && r.base == o.base
  {
    o.(flags := flags)
  }

  /** The constructor: the shared fields go to IArgument's constructor
      unchanged, then the flags are set. */
  function New(flags: seq<string>, help: string, nargs: uint32, required: bool, deprecated: bool)
    : (r: OptionalArgument)
    ensures r.flags == flags
    ensures r.base == Argument(help, nargs, required, deprecated)
  {
    SetFlags(OptionalArgument(Argument(help, nargs, required, deprecated), []), flags)
  }

  /** The copy constructor: IArgument's copy of the shared fields, then
      selfCopy of the flags. */
  function Copy(src: OptionalArgument): (r: OptionalArgument)
    ensures r == src
  {
    OptionalArgument(ArgumentBase.Copy(src.base), src.flags)
  }

  /** Copy assignment: IArgument's assignment, then the flags; nothing
      happens when `this == &Right` (`aliased`). */
  function CopyAssign(dst: OptionalArgument, src: OptionalArgument, aliased: bool): (r: OptionalArgument)
    requires aliased ==> dst == src
    ensures r == src
    ensures aliased ==> r == dst
  {
    if aliased then dst
    else OptionalArgument(ArgumentBase.CopyAssign(dst.base, src.base, false), src.flags)
  }

  /** The move constructor: the pair (new object, moved-from object). The
      shared fields move as in IArgument, the flags list is moved (left
      empty in the source, one of the states std::list allows). */
  function Move(src: OptionalArgument): (r: (OptionalArgument, OptionalArgument))
    ensures r.0 == src
    ensures IsReset(r.1.base)
  {
    var (base, srcBase) := ArgumentBase.Move(src.base);
    (OptionalArgument(base, src.flags), OptionalArgument(srcBase, []))
  }

  /** Move assignment: the pair (this, Right) afterwards; a self move
      changes nothing. */
  function MoveAssign(dst: OptionalArgument, src: OptionalArgument, aliased: bool)
    : (r: (OptionalArgument, OptionalArgument))
    requires aliased ==> dst == src
    ensures aliased ==> r == (dst, src)
    ensures !aliased ==> r.0 == src && IsReset(r.1.base)
  {
    if aliased then (dst, src)
    else
      var (base, srcBase) := ArgumentBase.MoveAssign(dst.base, src.base, false);
      (OptionalArgument(base, src.flags), OptionalArgument(srcBase, []))
  }
}

=== FILE: results.dfy ===
/** Failure-carrying datatypes shared by the model. */
module Results {

  /** An optional value. */
  datatype Option<+T> = None | Some(value: T)

  /** The result of a constructor that may throw: the new object, or the exception. */
  datatype Result<+T, +E> = Ok(value: T) | Err(error: E)

  /** What a caller sees after calling an operation that may throw on an
      object or on out-parameters it owns: the state after the call, and the
      exception that was raised, if any. */
  datatype Outcome<+S, +E> = Outcome(state: S, raised: Option<E>)

  /** The operation returned normally, leaving `state`. */
  function Done<S, E>(state: S): Outcome<S, E> {
    Outcome(state, None)
  }

  /** The operation threw `e` and left `state` as it was. */
  function Raise<S, E>(state: S, e: E): Outcome<S, E> {
    Outcome(state, Some(e))
  }
}

=== FILE: std_string.dfy ===
/** The parts of std::string the option styles rely on: size_t positions and
    npos, find, find_first_of and substr, with size_t arithmetic written out. */
module StdString {

  /** size_t is taken to be 64 bits wide; unsigned arithmetic wraps modulo SIZE_MOD. */
  const SIZE_MOD: nat := 0x1_0000_0000_0000_0000

  /** std::string::npos, the largest size_t. Every std::string is shorter than
      npos (max_size() < npos), which the split functions require of their tokens. */
  const NPOS: nat := SIZE_MOD - 1

  /** A position returned by a search: an index into the string, or npos. */
  datatype Pos = Npos | At(index: nat)

  /** The size_t value a position has in C++. */
  function ToSize(p: Pos): nat {
    match p
    case Npos => NPOS
    case At(i) => i
  }

  /** Unsigned size_t subtraction `a - b`, wrapping around below zero. */
  function SizeSub(a: nat, b: nat): (r: nat)
    requires a < SIZE_MOD && b < SIZE_MOD
    ensures r < SIZE_MOD
    ensures b <= a ==> r == a - b
    ensures a < b ==> r == SIZE_MOD - (b - a)
  {
    (a - b) % SIZE_MOD
  }

  function Min(a: nat, b: nat): nat {
    if a <= b then a else b
  }

  /** `pat` occurs in `s` starting at index `i`. */
  predicate OccursAt(s: string, pat: string, i: nat) {
    i + |pat| <= |s| && s[i..i + |pat|] == pat
  }

  /** std::string::find(pat, from): the lowest index at or after `from` where
      `pat` occurs, or npos. The empty pattern occurs at every index up to |s|. */
  function Find(s: string, pat: string, from: nat): (r: Pos)
    ensures r.At? ==> from <= r.index && OccursAt(s, pat, r.index)
    ensures r.At? ==> forall j :: from <= j < r.index ==> !OccursAt(s, pat, j)
    ensures r.Npos? ==> forall j :: from <= j ==> !OccursAt(s, pat, j)
    decreases |s| - from
  {
    if |s| < from + |pat| then Npos
    else if s[from..from + |pat|] == pat then At(from)
    else Find(s, pat, from + 1)
  }

  /** std::string::find_first_of(chars, from): the lowest index at or after
      `from` holding one of `chars`, or npos. */
  function FindFirstOf(s: string, chars: string, from: nat): (r: Pos)
    ensures r.At? ==> from <= r.index < |s| && s[r.index] in chars
    ensures r.At? ==> forall j :: from <= j < r.index ==> s[j] !in chars
    ensures r.Npos? ==> forall j :: from <= j < |s| ==> s[j] !in chars
    decreases |s| - from
  {
    if |s| <= from then Npos
    else if s[from] in chars then At(from)
    else FindFirstOf(s, chars, from + 1)
  }

  /** std::string::substr(pos, count): the characters from `pos` on, at most
      `count` of them (a count past the end is clamped). */
  function Substr(s: string, pos: nat, count: nat): string
    requires pos <= |s|
  {
    s[pos..pos + Min(count, |s| - pos)]
  }

  /** Searching from `from` finds what searching from `k` finds when no
      occurrence starts between the two. */
  lemma FindSkips(s: string, pat: string, from: nat, k: nat)
    requires from <= k
    requires forall j :: from <= j < k ==> !OccursAt(s, pat, j)
    ensures Find(s, pat, from) == Find(s, pat, k)
  {
    var r1, r2 := Find(s, pat, from), Find(s, pat, k);
    if r1.At? {
      assert r2.At? && r2.index <= r1.index;
    }
  }

  /** A one-character pattern occurs exactly where that character stands. */
  lemma OccursAtChar(s: string, c: char, j: nat)
    ensures OccursAt(s, [c], j) <==> j < |s| && s[j] == c
  {
    if j < |s| {
      assert s[j..j + 1] == [s[j]];
    }
  }

  /** Searching for one character finds its first occurrence at or after `from`. */
  lemma FindChar(s: string, c: char, from: nat, k: nat)
    requires from <= k < |s| && s[k] == c
    requires forall j :: from <= j < k ==> s[j] != c
    ensures Find(s, [c], from) == At(k)
  {
    OccursAtChar(s, c, k);
    var r := Find(s, [c], from);
    OccursAtChar(s, c, r.index);
  }

  /** Searching for a character absent from `from` on gives npos. */
  lemma FindCharAbsent(s: string, c: char, from: nat)
    requires forall j :: from <= j < |s| ==> s[j] != c
    ensures Find(s, [c], from) == Npos
  {
    var r := Find(s, [c], from);
    if r.At? {
      OccursAtChar(s, c, r.index);
    }
  }

  /** find with a one-character pattern in terms of characters: the first
      index at or after `from` holding `c`, or npos when there is none. */
  lemma FindCharSpec(s: string, c: char, from: nat)
    ensures Find(s, [c], from).At? ==>
      var k := Find(s, [c], from).index;
      from <= k < |s| && s[k] == c && forall j :: from <= j < k ==> s[j] != c
    ensures Find(s, [c], from).Npos? ==> forall j :: from <= j < |s| ==> s[j] != c
  {
    var r := Find(s, [c], from);
    if r.At? {
      OccursAtChar(s, c, r.index);
      forall j | from <= j < r.index ensures s[j] != c {
        OccursAtChar(s, c, j);
      }
    } else {
      forall j | from <= j < |s| ensures s[j] != c {
        OccursAtChar(s, c, j);
      }
    }
  }
}

=== FILE: unix_style.dfy ===
/** The Unix option style (OptionStyles/UnixStyle.cpp): "-x" short options,
    whose value follows the letter directly, and "--name[=value]" long
    options. Both splitArg and isArgOptional override the generic style. */
module UnixStyle {
  import opened Results
  import opened StdString
  import opened OptionStyle

  const SHORT_INDICATOR: char := '-'
  const LONG_INDICATOR: string := "--"
  const VALUE_DELIM: string := "="

  /** The generic style UnixStyle() passes to its base: "--" and "=". */
  function Base(): (r: Style)
    ensures Valid(r) && r.indicator == LONG_INDICATOR && r.delimiter == VALUE_DELIM
  {
    New(LONG_INDICATOR, VALUE_DELIM).value
  }

  /** isArgOptional: any non-empty token starting with '-'. */
  predicate IsUnixOptional(arg: string) {
    |arg| > 0 && arg[0] == SHORT_INDICATOR
  }

  /** The override is the generic test with the short indicator "-", which
      accepts the same tokens except "-" itself. */
  lemma UnixOptionalIsShortIndicatorTest(arg: string)
    ensures IsUnixOptional(arg) <==>
      arg == [SHORT_INDICATOR] || OptionStyle.IsArgOptional(Style([SHORT_INDICATOR], VALUE_DELIM), arg)
  {
  }

  /** The override accepts every token the base style would, and also "-"
      and "--", which the base style calls positional. */
  lemma UnixOptionalWidensBase(arg: string)
    ensures OptionStyle.IsArgOptional(Base(), arg) ==> IsUnixOptional(arg)
    ensures IsUnixOptional("-") && IsUnixOptional("--")
    ensures !OptionStyle.IsArgOptional(Base(), "-") && !OptionStyle.IsArgOptional(Base(), "--")
  {
  }

  /** splitArg. Long form ("--" prefix): split at the first '='; short form:
      the name is the one character after '-' and the rest is the value.
      Outputs are assigned only on return. */
  function SplitArg(arg: string, option: string, value: string): (r: Outcome<Parts, SplitError>)
    requires |arg| < NPOS
    ensures r.raised.Some? ==> r.state == Parts(option, value)
    ensures r.raised == Some(NotAnOption) <==> !IsUnixOptional(arg)
    ensures r.raised == Some(MissingOptionName) <==>
      arg == "-" || arg == "--" || (|arg| > 3 && arg[..3] == "--=")
    ensures r.raised == Some(DelimiterAsName) <==>
      arg == "--=" || (|arg| >= 2 && arg[0] == '-' && arg[1] == '=')
    ensures r.raised == Some(UnsupportedDelimiterInShortOption) <==>
      |arg| >= 3 && arg[0] == '-' && arg[1] != '-' && arg[1] != '=' && arg[2] == '='
    ensures r.raised.None? ==> |arg| >= 2 && r.state.option != [] && '=' !in r.state.option
    ensures r.raised.None? && |arg| >= 2 && arg[1] != '-' ==>
      && r.state.option == [arg[1]]
      && r.state.option[0] != '-' && r.state.option[0] != '='
      && r.state.value == arg[2..]
      && arg == [SHORT_INDICATOR] + r.state.option + r.state.value
    ensures r.raised.None? && |arg| >= 2 && arg[1] == '-' && '=' in arg ==>
      arg == LONG_INDICATOR + r.state.option + VALUE_DELIM + r.state.value
    ensures r.raised.None? && |arg| >= 2 && arg[1] == '-' && '=' !in arg ==>
      arg == LONG_INDICATOR + r.state.option && r.state.value == []
  {
    if !IsUnixOptional(arg) then Raise(Parts(option, value), NotAnOption)
    else if Substr(arg, 0, |LONG_INDICATOR|) == LONG_INDICATOR then
      if |arg| == 2 then Raise(Parts(option, value), MissingOptionName)
      else
        FindCharSpec(arg, '=', 0);
        assert arg[..3] == "--=" ==> arg[2] == '=';
        var delimPos := Find(arg, VALUE_DELIM, 0);
        var val := if delimPos.At? then arg[delimPos.index + |VALUE_DELIM|..] else [];
        var opt := Substr(arg, |LONG_INDICATOR|, SizeSub(ToSize(delimPos), |LONG_INDICATOR|));
        if opt == [] then
          if delimPos.Npos? then Raise(Parts(option, value), MissingOptionName)
          else if val == [] then Raise(Parts(option, value), DelimiterAsName)
          else Raise(Parts(option, value), MissingOptionName)
        else Done(Parts(opt, val))
    else
      if |arg| == 1 then Raise(Parts(option, value), MissingOptionName)
      else
        var opt := [arg[1]];
        if opt == VALUE_DELIM then Raise(Parts(option, value), DelimiterAsName)
        else if Find(arg, VALUE_DELIM, 2) == At(2) then
          Raise(Parts(option, value), UnsupportedDelimiterInShortOption)
        else Done(Parts(opt, arg[2..]))
  }

  /** The npos branch inside the empty-name case of the long form can never
      be taken: past the "--" check the token has at least three characters,
      so without a '=' the name is the non-empty rest of the token. */
  lemma LongNposBranchUnreachable(arg: string)
    requires |arg| < NPOS && |arg| > 2 && arg[..2] == LONG_INDICATOR
    requires Find(arg, VALUE_DELIM, 0).Npos?
    ensures Substr(arg, |LONG_INDICATOR|, SizeSub(ToSize(Find(arg, VALUE_DELIM, 0)), |LONG_INDICATOR|)) != []
  {
    assert Substr(arg, 2, SizeSub(NPOS, 2)) == arg[2..];
  }

  /** Long options round-trip: "--name=value" splits into the name and the
      value, which may itself contain '='. */
  lemma LongRoundTrip(name: string, value: string, option: string, previous: string)
    requires name != [] && '=' !in name && |name| + |value| + 3 < NPOS
    ensures SplitArg(LONG_INDICATOR + name + VALUE_DELIM + value, option, previous) == Done(Parts(name, value))
  {
    var arg := LONG_INDICATOR + name + VALUE_DELIM + value;
    forall j | 0 <= j < 2 + |name| ensures arg[j] != '=' {
      if j >= 2 { assert arg[j] == name[j - 2]; }
    }
    assert arg[2 + |name|] == '=';
    FindChar(arg, '=', 0, 2 + |name|);
    assert Substr(arg, 0, 2) == LONG_INDICATOR;
    assert Substr(arg, 2, SizeSub(2 + |name|, 2)) == name;
    assert arg[3 + |name|..] == value;
  }

  /** "--name" splits into the name and an empty value. */
  lemma LongBareRoundTrip(name: string, option: string, previous: string)
    requires name != [] && '=' !in name && |name| + 2 < NPOS
    ensures SplitArg(LONG_INDICATOR + name, option, previous) == Done(Parts(name, []))
  {
    var arg := LONG_INDICATOR + name;
    assert arg[..2] == LONG_INDICATOR && arg[2] == name[0];
    assert '=' !in arg;
    var r := SplitArg(arg, option, previous);
    assert arg[2..] == name && (LONG_INDICATOR + r.state.option)[2..] == r.state.option;
  }

  /** "--name=" splits like "--name": an explicitly empty inline value cannot
      be told apart from a missing one. */
  lemma LongEmptyValueLikeBare(name: string, option: string, previous: string)
    requires name != [] && '=' !in name && |name| + 3 < NPOS
    ensures SplitArg(LONG_INDICATOR + name + VALUE_DELIM, option, previous)
         == SplitArg(LONG_INDICATOR + name, option, previous)
  {
    assert LONG_INDICATOR + name + VALUE_DELIM == LONG_INDICATOR + name + VALUE_DELIM + [];
    LongRoundTrip(name, [], option, previous);
    LongBareRoundTrip(name, option, previous);
  }

  /** Short options round-trip: '-', one name character other than '-' and
      '=', then a value not starting with '=' split into that character and
      the value. */
  lemma ShortRoundTrip(c: char, value: string, option: string, previous: string)
    requires c != SHORT_INDICATOR && c != '='
    requires (value == [] || value[0] != '=') && |value| + 2 < NPOS
    ensures SplitArg([SHORT_INDICATOR, c] + value, option, previous) == Done(Parts([c], value))
  {
    var arg := [SHORT_INDICATOR, c] + value;
    assert arg[0] == '-' && arg[1] == c && arg[2..] == value;
  }

  /** Degenerate tokens never split: "-", "--", "--=", "--=x", "-=" and
      "-f=x" each raise, leaving the outputs as they were. */
  lemma UnixDegenerateTokens()
    ensures SplitArg("-", "o", "v") == Raise(Parts("o", "v"), MissingOptionName)
    ensures SplitArg("--", "o", "v") == Raise(Parts("o", "v"), MissingOptionName)
    ensures SplitArg("--=", "o", "v") == Raise(Parts("o", "v"), DelimiterAsName)
    ensures SplitArg("--=x", "o", "v") == Raise(Parts("o", "v"), MissingOptionName)
    ensures SplitArg("-=", "o", "v") == Raise(Parts("o", "v"), DelimiterAsName)
    ensures SplitArg("-f=x", "o", "v") == Raise(Parts("o", "v"), UnsupportedDelimiterInShortOption)
  {
    assert "--=x"[..3] == "--=";
  }

  /** The short form takes everything after the name character as the
      value, a '=' past the third character included. */
  lemma UnixShortExamples()
    ensures SplitArg("-f", "o", "v") == Done(Parts("f", ""))
    ensures SplitArg("-fvalue", "o", "v") == Done(Parts("f", "value"))
    ensures SplitArg("-fa=b", "o", "v") == Done(Parts("f", "a=b"))
  {
    ShortRoundTrip('f', "", "o", "v");
    assert "-f" == [SHORT_INDICATOR, 'f'] + "";
    ShortRoundTrip('f', "value", "o", "v");
    assert "-fvalue" == [SHORT_INDICATOR, 'f'] + "value";
    ShortRoundTrip('f', "a=b", "o", "v");
    assert "-fa=b" == [SHORT_INDICATOR, 'f'] + "a=b";
  }
}

=== FILE: windows_style.dfy ===
/** The Windows option style (OptionStyles/WindowsStyle.cpp): the generic
    style with indicator "/" and delimiter ":"; it overrides nothing. */
module WindowsStyle {
  import opened Results
  import opened StdString
  import opened OptionStyle

  const INDICATOR: string := "/"
  const VALUE_DELIM: string := ":"

  /** WindowsStyle(): the generic constructor with "/" and ":", which cannot fail. */
  function Windows(): (r: Style)
    ensures Valid(r) && r.indicator == INDICATOR && r.delimiter == VALUE_DELIM
  {
    New(INDICATOR, VALUE_DELIM).value
  }

  /** A token is an option iff it has at least two characters and starts
      with '/'; "/" alone is positional. */
  lemma WindowsOptionalIff(arg: string)
    ensures IsArgOptional(Windows(), arg) <==> |arg| >= 2 && arg[0] == '/'
  {
  }

  /** "/name:value" splits into the name and the value, which may itself
      contain ':'. The code as written gets there only when the caller's
      incoming Option is non-empty; the intended split always does. */
  lemma WindowsRoundTrip(name: string, value: string, option: string, previous: string)
    requires name != [] && ':' !in name && |name| + |value| + 2 < NPOS
    ensures SplitArgIntended(Windows(), INDICATOR + name + VALUE_DELIM + value, option, previous)
         == Done(Parts(name, value))
    ensures option != [] ==>
      SplitArg(Windows(), INDICATOR + name + VALUE_DELIM + value, option, previous)
      == Done(Parts(name, value))
    ensures option == [] ==>
      SplitArg(Windows(), INDICATOR + name + VALUE_DELIM + value, option, previous)
      == Raise(Parts(option, previous), MissingOptionName)
  {
    var arg := INDICATOR + name + VALUE_DELIM + value;
    assert arg[0] == '/' && arg[1] == name[0] && arg[1 + |name|] == ':';
    forall j | 0 <= j < 1 + |name| ensures arg[j] != ':' {
      if j > 0 { assert arg[j] == name[j - 1]; }
    }
    FindChar(arg, ':', 0, 1 + |name|);
    FindChar(arg, ':', 1, 1 + |name|);
    assert Substr(arg, 1, SizeSub(1 + |name|, 1)) == name;
    assert arg[2 + |name|..] == value;
  }

  /** "/name" splits into the name and an empty value, under the same
      incoming-Option proviso. */
  lemma WindowsBareRoundTrip(name: string, option: string, previous: string)
    requires name != [] && ':' !in name && |name| + 1 < NPOS
    ensures SplitArgIntended(Windows(), INDICATOR + name, option, previous) == Done(Parts(name, []))
    ensures option != [] ==>
      SplitArg(Windows(), INDICATOR + name, option, previous) == Done(Parts(name, []))
  {
    var arg := INDICATOR + name;
    assert arg[0] == '/' && arg[1] == name[0];
    forall j | 0 <= j < |arg| ensures arg[j] != ':' {
      if j > 0 { assert arg[j] == name[j - 1]; }
    }
    FindCharAbsent(arg, ':', 0);
    FindCharAbsent(arg, ':', 1);
    assert Substr(arg, 1, SizeSub(NPOS, 1)) == name;
  }

  /** Copy and move construction forward to the generic style's, which
      carry both strings over, so the result is again the Windows style. */
  lemma WindowsCopyPreserves()
    ensures Copy(Windows()) == Windows()
  {
  }
}
